=== FILE: README.md ===
# Homework-status notifier and Gemini chat bot, in Dafny

This project models the two pieces of decision logic in a small Telegram
repository:

- **The homework-status notifier** (`homework.py`). It checks its tokens at
  start-up, then polls the review-status API in a loop. Each iteration
  validates the answer's shape. If the list of homeworks is non-empty, it parses
  the first record against a closed table of three verdicts and sends one chat
  notification; an empty list sends nothing. An iteration that fails sends an
  error notice, or nothing if that notice matches the last one. It keeps two
  values between iterations: a `from_date` cursor and the text of the last
  error notice that reached the chat. An error notice is not sent again while
  it matches that marker.
- **The Gemini chat bot's handlers** (`bot.py`). `/start` gets a welcome text.
  Photos, voice messages, documents and locations get a stub reply naming the
  format. Text is stripped and compared, lower-cased, with one trigger word.
  Any other text goes to the model, with a fixed apology when the model's answer
  is empty.

Everything is pure functions over immutable datatypes:

- `PyValue.Value` stands for the decoded JSON answer.
- `Poller.Step` is one loop iteration. It maps the state, the abstract outcome
  of the HTTP call and the outcome of each chat send to a new state plus the
  list of texts handed to `send_message`.
- `Bot.Handle` maps an incoming message to the list of bot actions.

The HTTP call, Telegram, the Gemini client and Unicode lower-casing are
inputs (`ApiOutcome`, `Delivery`, `ModelCall`, and `lower: string -> string`).

Modules, one per concern:

| file | module | models |
|---|---|---|
| results.dfy | `Results` | `None`/value and return/raise |
| pyvalue.dfy | `PyValue` | decoded JSON values, `dict.get`, `str(int)`, `str(value)` in f-strings |
| homework.py → homework.dfy | `Homework` | `HOMEWORK_VERDICTS`, `check_tokens`, `check_response`, `parse_status`, exception texts |
| homework.py → poller.dfy | `Poller` | `get_api_answer`'s failures, `send_message`'s re-raise, the body of `main`'s loop, `main` over a finite run |
| pytext.dfy | `PyText` | Python's `str.strip()` |
| bot.py → bot.dfy | `Bot` | `ask_gemini_text`, the stub, start and text handlers |

The model follows the code, including at these points, where a reader might expect otherwise:

- The cursor takes `current_date` whenever the key is present, even if that
  value is smaller than the old one. Nothing keeps it from going backward.
- Content types other than text, photo, voice, document and location
  (stickers, say) get no reply at all (`Content.Unhandled`).

Two Python details are modelled because they change the chat texts:

- `str(KeyError(m))` is `repr(m)`. The notice for a missing `homeworks` key
  therefore quotes the message in single quotes (`Homework.ErrorText`).
- A list or dict `status` makes `status not in HOMEWORK_VERDICTS` raise
  `TypeError: unhashable type` instead of the `ValueError`.

## Model

| member | source | states |
|---|---|---|
| Homework.CheckTokens | homework.py:39-47 | true exactly when none of the three tokens is `None`; an empty value counts as set |
| Homework.CheckResponse | homework.py:76-87 | a non-dict root is a TypeError; otherwise a missing `homeworks` is a KeyError; otherwise a non-list value is a TypeError; it succeeds exactly for a dict whose `homeworks` is a list, and then returns that list unchanged |
| Homework.ParseStatus | homework.py:90-113 | non-dict record: TypeError; name or status absent or None: KeyError; list/dict status: unhashable TypeError; any other status outside the table: ValueError naming it; succeeds exactly when the status is a string key of the table, with text `Изменился статус проверки работы "<name>". <verdict>` |
| Homework.VerdictTableClosed | homework.py:32-36 | the verdict table has exactly the three keys `approved`, `reviewing`, `rejected` |
| Homework.VerdictReadBack | homework.py:32-36 | whatever precedes it, a text ending in a verdict reads back as that verdict's status, so the three verdicts cannot be confused |
| Homework.ParseStatusRoundTrip | homework.py:103-113 | an accepted status is one of the three codes; the notification determines that status and quotes a string name verbatim after the fixed prefix |
| PyValue.IntToStrRoundTrip | homework.py:64-66 | the decimal text of an integer (as in the API status-code message) reads back as the same integer |
| Poller.StatusCodeInNotice | homework.py:64-66 | the error notice for a non-200 answer starts with the fixed prefixes and the status code can be read back from the rest |
| Poller.SendError | homework.py:50-57 | a failed Telegram send is re-raised as a plain `Exception` whose text is the fixed prefix followed by the original error text, which can be read back |
| Poller.ApiError | homework.py:60-73 | every failed request surfaces as a plain `Exception`, never a validation error; a non-200 answer, an unreachable endpoint and any other request error each get their own fixed prefix, followed by the status code or the original error text |
| Poller.TryCycle | homework.py:127-136 | the `try` block completes exactly when the answer is well formed and either its list is empty or the first homework parses and its notification is delivered; it then yields `current_date` or the old cursor; it sends at most one text, the first homework's notification; a failure raises, in this order, the request's error, the `check_response` error, the `parse_status` error of the first homework, or the re-raised send error |
| Poller.Step | homework.py:127-149 | a successful iteration moves the cursor to `current_date` if present, otherwise keeps it, and clears the marker; a failed one keeps the cursor; a marked error either stays as it was or is the last text sent in that iteration, with the notice channel delivering; at most two texts per iteration (for a failed iteration the marker's exact value, the raised error's notice and only once delivered, is stated by `Poller.ErrorNoticeDeduplicated`) |
| Poller.Cycles | homework.py:126-150 | consecutive iterations send at most two texts each; the cursor stays put unless some iteration succeeds; after a successful last iteration no error is marked |
| Poller.Run | homework.py:116-126 | `main` halts before any iteration exactly when one of the three tokens is unset; otherwise it runs the iterations from the current time with no marker |
| Poller.OnlyFirstHomeworkReported | homework.py:130-132 | homeworks after the first have no effect on an iteration |
| Poller.NonEmptyListNotifiesOnce | homework.py:130-132 | a non-empty list whose first record parses sends that record's notification first, and only it when delivered |
| Poller.EmptyListSendsNothing | homework.py:130-136 | an empty list sends nothing and raises nothing: cursor to `current_date` or kept, marker cleared |
| Poller.ErrorNoticeDeduplicated | homework.py:137-149 | a failed iteration sends `Сбой в работе программы: <error>` exactly when it differs from the marker; the marker takes it only when delivered; otherwise nothing changes |
| Poller.RepeatedErrorReportedOnce | homework.py:126-150 | any number of identical silent failures in a row with delivered notices send the notice once at most (none if already marked), and leave the cursor unchanged |
| Poller.SuccessRearmsErrorNotice | homework.py:136-149 | a successful iteration between two identical failures makes the second one notify again |
| Poller.UndeliveredNoticeRetried | homework.py:142-149 | a notice whose send fails leaves the state unchanged, so the same failure next time sends it again |
| Poller.ApprovedExample | homework.py:127-136 | an answer with one approved `hw1` and `current_date` 1000 sends exactly the approved notification for `hw1`, and the next request asks `from_date` 1000 |
| Poller.MissingHomeworksExample | homework.py:81-83 | an answer without `homeworks` sends the quoted KeyError notice once; the immediate repeat sends nothing |
| PyText.Strip | bot.py:88 | the stripped text has no whitespace at either end |
| PyText.StripRemovesOnlySpace | bot.py:88 | the input is the stripped text with whitespace only before and after it |
| PyText.StripRecoversCore | bot.py:88 | any text without outer whitespace, surrounded by any whitespace, strips back to itself |
| PyText.StripIdempotent | bot.py:88 | stripping twice equals stripping once |
| Bot.AskGemini | bot.py:38-46 | a raising call yields a truthy text, never an exception; otherwise the model's own text (possibly empty or `None`) is returned |
| Bot.StubText | bot.py:49-53 | the stub reply is the fixed opening, then the format name, then the fixed closing, each readable at its position |
| Bot.HandleText | bot.py:86-97 | one action exactly when the stripped, lower-cased text is the trigger, otherwise three; the last action is always one non-empty reply to the same chat; the model is asked only with the stripped text |
| Bot.Handle | bot.py:56-97 | exactly the unhandled content types get no action; every other message ends in exactly one reply, to its own chat, as the last action; the typing action goes to the same chat; only text can reach the model |
| Bot.TriggerGetsRetort | bot.py:88-91 | the retort `Сам ты дурила` is the whole reply exactly when the stripped, lower-cased text equals `дурила`; then no typing and no model call happen |
| Bot.OtherTextAsksModel | bot.py:93-97 | any other text gives typing, one model call with the stripped text (not lower-cased), and one reply: the answer if truthy, otherwise the apology |
| Bot.GeminiFailureSentAsIs | bot.py:38-46 | a raising model call yields the fixed Gemini failure text, which is truthy and sent unchanged |
| Bot.RepliesNeverEmpty | bot.py:95-97 | no reply the bot sends is empty |
| Bot.StubNamesFormat | bot.py:49-83 | photo, voice, document and location each give exactly one reply, `Я пока не умею обрабатывать <format>, закиньте денег …🙂` with that format's name, readable between the template's fixed parts |
| Bot.StartSendsWelcome | bot.py:56-63 | `/start` gives exactly the three-line welcome text |

## Left out

- HTTP (`requests.get`, status codes, JSON decoding) is the input `Poller.ApiOutcome`. Its failure cases carry the `requests` exception's text as an uninterpreted string.
- Telegram (`TeleBot`, `send_message`, `send_chat_action`, `infinity_polling`) is the input `Poller.Delivery` for the notifier. For the bot it is a list of recorded `Bot.Action`s.
- The bot's send failures are not modelled: `bot.py` guards neither `send_message` nor `send_chat_action`, so a failing typing action would end the handler before the model is asked, and the model has no failure outcome for `SendTyping`.
- Telegram's own detection of the `/start` command (and of content types) is library code. The model receives it already classified as `Bot.Content`.
- The Gemini client is the input `model: string -> ModelCall`. Unicode `str.lower()` is the input `lower: string -> string`.
- `time.time()`, `time.sleep(RETRY_PERIOD)` and the endless loop are left out. The current time is a parameter of `Poller.Run`, and the loop is a fold over a finite sequence of iterations.
- Logging, `load_dotenv`/`os.getenv` and the module globals are left out. The tokens are the parameter `Homework.Tokens`.
- JSON floats are not part of `PyValue.Value`.
- Homework.ParseStatus: the `TypeError` texts `unhashable type: 'list'` and `unhashable type: 'dict'` are CPython's own messages as of Python 3.13, not a language guarantee; later releases word hashing errors on dict lookups differently.
- PyValue.ToStr: renders a list or dict homework name as a fixed placeholder rather than Python's `repr`. This only affects the notification text for a malformed name.
- Homework.ErrorText: renders a `KeyError` as its message in single quotes. That is Python's `repr` only for messages without single quotes, backslashes or unprintable characters, which holds for both `KeyError`s the notifier raises (the double quotes around `homeworks` are left as they are).
- The message `main` prints at bot start-up and the logging of the notifier's errors are not modelled.

=== FILE: bot.dfy ===
/** The Gemini chat bot's reply logic: which actions each incoming message
    leads to. The Telegram transport, the Gemini client and Unicode
    lower-casing are parameters; the handlers' decisions and texts are
    modelled exactly. */
module Bot {
  import opened Results
  import opened PyText

  const Trigger: string := "дурила"
  const Retort: string := "Сам ты дурила"
  const Apology: string := "Извините, не удалось получить ответ от нейросети."
  const GeminiFailure: string := "Ошибка при запросе к модели Gemini."
  const WelcomeText: string :=
    "Привет, я бот - нейросеть.\nНапиши мне что-нибудь, и я отвечу, наверное.\nА может и нет, хз."
  const StubPrefix: string := "Я пока не умею обрабатывать "
  const StubSuffix: string := ", закиньте денег на оплату ИИ и разработчик обязательно это добавит🙂"

  /** What an incoming message is, as the handler registrations tell them
      apart; `Unhandled` is any content type none of them accepts. */
  datatype Content =
    | StartCommand
    | Photo
    | Voice
    | Document
    | Location
    /** A text message other than the `/start` command, which the handler
        registered first always takes (`StartCommand`). */
    | Text(text: string)
    | Unhandled

  datatype Message = Message(chat: int, content: Content)

  /** What one `generate_content` call does: answer with `response.text`
      (possibly `None` or empty), or raise. */
  datatype ModelCall = Generated(text: Option<string>) | Raised

  /** The bot's effects, in the order it performs them. */
  datatype Action =
    | SendMessage(chat: int, text: string)
    | SendTyping(chat: int)
    | AskModel(prompt: string)

  /** `ask_gemini_text`: the model's text, or the fixed failure text when the
      call raises; it never raises itself. */
  function AskGemini(call: ModelCall): (answer: Option<string>)
    ensures call.Raised? ==> Truthy(answer)
    ensures call.Generated? ==> answer == call.text
  {
    match call
    case Generated(text) => text
    case Raised => Some(GeminiFailure)
  }

  /** Python truthiness of a `str` or `None`. */
  predicate Truthy(answer: Option<string>)
  {
    answer.Some? && answer.value != ""
  }

  /** The stub reply for an unsupported format. */
  function StubText(formatName: string): (text: string)
    ensures |text| == |StubPrefix| + |formatName| + |StubSuffix|
    ensures text[..|StubPrefix|] == StubPrefix
    ensures text[|StubPrefix|..|StubPrefix| + |formatName|] == formatName
    ensures text[|StubPrefix| + |formatName|..] == StubSuffix
  {
    StubPrefix + formatName + StubSuffix
  }

  predicate IsStubFormat(c: Content)
  {
    c.Photo? || c.Voice? || c.Document? || c.Location?
  }

  /** The format each stub handler names. */
  function FormatName(c: Content): (name: string)
    requires IsStubFormat(c)
  {
    match c
    case Photo => "фотографии"
    case Voice => "голосовые сообщения"
    case Document => "документы"
    case Location => "геолокации"
  }

  /** `handle_message`: the stripped text is compared, lower-cased, with the
      trigger word; on a match the retort is the only action. Otherwise the
      bot shows it is typing, asks the model with the stripped text, and sends
      the answer, or the apology when the answer is empty or `None`. */
  function HandleText(chat: int, text: string, lower: string -> string, model: string -> ModelCall): (actions: seq<Action>)
    ensures |actions| == 1 || |actions| == 3
    ensures actions[|actions| - 1].SendMessage? && actions[|actions| - 1].chat == chat
    ensures actions[|actions| - 1].text != []
    ensures |actions| == 1 <==> lower(Strip(text)) == Trigger
    ensures forall i :: 0 <= i < |actions| && actions[i].AskModel? ==> actions[i].prompt == Strip(text)
  {
    var userText := Strip(text);
    if lower(userText) == Trigger then [SendMessage(chat, Retort)]
    else
      var answer := AskGemini(model(userText));
      var reply := if Truthy(answer) then answer.value else Apology;
      [SendTyping(chat), AskModel(userText), SendMessage(chat, reply)]
  }

  /** The handlers together: every handled message ends in exactly one reply
      to its own chat, which is its last action; only text can reach the
      model; nothing happens for content without a handler. */
  function Handle(m: Message, lower: string -> string, model: string -> ModelCall): (actions: seq<Action>)
    ensures m.content.Unhandled? <==> actions == []
    ensures actions != [] ==> actions[|actions| - 1].SendMessage? && actions[|actions| - 1].chat == m.chat
    ensures forall i :: 0 <= i < |actions| - 1 ==> !actions[i].SendMessage?
    ensures forall i :: 0 <= i < |actions| && actions[i].SendTyping? ==> actions[i].chat == m.chat
    ensures forall i :: 0 <= i < |actions| && actions[i].AskModel? ==> m.content.Text?
  {
    match m.content
    case StartCommand => [SendMessage(m.chat, WelcomeText)]
    case Text(text) => HandleText(m.chat, text, lower, model)
    case Unhandled => []
    case _ => [SendMessage(m.chat, StubText(FormatName(m.content)))]
  }

  /** The trigger word, and only an exact match of it, gets the retort, and
      then neither the typing action nor the model call happens. */
  lemma TriggerGetsRetort(chat: int, text: string, lower: string -> string, model: string -> ModelCall)
    ensures var actions := Handle(Message(chat, Text(text)), lower, model);
            (actions == [SendMessage(chat, Retort)]) <==> lower(Strip(text)) == Trigger
    ensures var actions := Handle(Message(chat, Text(text)), lower, model);
            lower(Strip(text)) == Trigger ==> forall i :: 0 <= i < |actions| ==> !actions[i].AskModel? && !actions[i].SendTyping?
  {
  }

  /** Any other text goes to the model exactly once, with the stripped but
      not lower-cased text, after the typing action; a truthy answer is sent
      verbatim and anything else becomes the apology. */
  lemma OtherTextAsksModel(chat: int, text: string, lower: string -> string, model: string -> ModelCall)
    requires lower(Strip(text)) != Trigger
    ensures var answer := AskGemini(model(Strip(text)));
            Handle(Message(chat, Text(text)), lower, model)
              == [SendTyping(chat), AskModel(Strip(text)),
                  SendMessage(chat, if Truthy(answer) then answer.value else Apology)]
  {
  }

  /** A failing model call never reaches the user as an exception: its
      failure text is truthy, so it is what the bot sends. */
  lemma GeminiFailureSentAsIs(chat: int, text: string, lower: string -> string, model: string -> ModelCall)
    requires lower(Strip(text)) != Trigger && model(Strip(text)).Raised?
    ensures Handle(Message(chat, Text(text)), lower, model)
              == [SendTyping(chat), AskModel(Strip(text)), SendMessage(chat, GeminiFailure)]
  {
    assert Truthy(AskGemini(model(Strip(text))));
  }

  /** The bot never sends an empty text: an empty or missing model answer is
      replaced by the apology. */
  lemma RepliesNeverEmpty(m: Message, lower: string -> string, model: string -> ModelCall)
    ensures var actions := Handle(m, lower, model);
            forall i :: 0 <= i < |actions| && actions[i].SendMessage? ==> actions[i].text != []
  {
    var actions := Handle(m, lower, model);
    if m.content.Text? && lower(Strip(m.content.text)) != Trigger {
      var answer := AskGemini(model(Strip(m.content.text)));
      assert actions[2].text == (if Truthy(answer) then answer.value else Apology);
    } else if IsStubFormat(m.content) {
      assert actions[0].text == StubPrefix + FormatName(m.content) + StubSuffix;
    }
  }

  /** Each stub reply names its own format: the name can be read back from
      between the template's two fixed parts, so the four replies differ. */
  lemma StubNamesFormat(m: Message, lower: string -> string, model: string -> ModelCall)
    requires IsStubFormat(m.content)
    ensures var actions := Handle(m, lower, model);
            var name := FormatName(m.content);
            && actions == [SendMessage(m.chat, StubPrefix + name + StubSuffix)]
            && |actions[0].text| == |StubPrefix| + |name| + |StubSuffix|
            && actions[0].text[|StubPrefix|..|StubPrefix| + |name|] == name
  {
    var name := FormatName(m.content);
    var text := StubPrefix + name + StubSuffix;
    assert text[|StubPrefix|..|StubPrefix| + |name|] == name;
  }

  /** `/start` gets the three-line welcome and nothing else. */
  lemma StartSendsWelcome(chat: int, lower: string -> string, model: string -> ModelCall)
    ensures Handle(Message(chat, StartCommand), lower, model) == [SendMessage(chat, WelcomeText)]
  {
  }
}

=== FILE: homework.dfy ===
/** The validation and formatting half of the homework-status notifier:
    the verdict table, the start-up token check, the shape check of the
    status API's answer and the parsing of one homework record. */
module Homework {
  import opened Results
  import opened PyValue

  const ApprovedVerdict: string := "Работа проверена: ревьюеру всё понравилось. Ура!"
  const ReviewingVerdict: string := "Работа взята на проверку ревьюером."
  const RejectedVerdict: string := "Работа проверена: у ревьюера есть замечания."

  /** `HOMEWORK_VERDICTS`: the three review statuses and their chat texts. */
  const Verdicts: map<string, string> := map[
    "approved" := ApprovedVerdict,
    "reviewing" := ReviewingVerdict,
    "rejected" := RejectedVerdict
  ]

  const NotDictMessage: string := "Ответ API не является словарем"
  const MissingHomeworksMessage: string := "Отсутствует ключ \"homeworks\" в ответе API"
  const NotListMessage: string := "Значение ключа \"homeworks\" не является списком"
  const MissingKeysMessage: string := "Отсутствуют обязательные ключи в ответе API"
  const UnexpectedStatusPrefix: string := "Неожиданный статус домашней работы: "
  const NotificationPrefix: string := "Изменился статус проверки работы \""
  const NotificationInfix: string := "\". "

  /** The exceptions the notifier raises; `Failure` is a bare `Exception`. */
  datatype Error =
    | TypeError(msg: string)
    | KeyError(msg: string)
    | ValueError(msg: string)
    | Failure(msg: string)

  /** Python's `str(error)`. For a `KeyError` this is the `repr` of its
      argument. For messages without single quotes, backslashes or
      unprintable characters, which holds for the notifier's two key-error
      messages, that is the message in single quotes. */
  function ErrorText(e: Error): string
  {
    match e
    case KeyError(m) => "'" + m + "'"
    case TypeError(m) => m
    case ValueError(m) => m
    case Failure(m) => m
  }

  /** The three environment variables the notifier needs; `None` when unset. */
  datatype Tokens = Tokens(practicum: Option<string>, telegram: Option<string>, chatId: Option<string>)

  /** `check_tokens`: every token must be set; an empty value still counts as set. */
  function CheckTokens(t: Tokens): (ok: bool)
    ensures ok <==> t.practicum != None && t.telegram != None && t.chatId != None
  {
    !(t.practicum.None? || t.telegram.None? || t.chatId.None?)
  }

  /** The shape `check_response` accepts: an object whose `homeworks` is a list. */
  predicate WellFormedAnswer(response: Value)
  {
    response.Dict? && "homeworks" in response.fields && response.fields["homeworks"].List?
  }

  /** `check_response`: the root must be a dict, must hold `homeworks`, and
      that value must be a list; each failure has its own exception, tested in
      that order. On success the list is handed back untouched. */
  function CheckResponse(response: Value): (r: Result<seq<Value>, Error>)
    ensures !response.Dict? ==> r == Err(TypeError(NotDictMessage))
    ensures response.Dict? && "homeworks" !in response.fields ==> r == Err(KeyError(MissingHomeworksMessage))
    ensures response.Dict? && "homeworks" in response.fields && !response.fields["homeworks"].List? ==>
              r == Err(TypeError(NotListMessage))
    ensures r.Ok? <==> WellFormedAnswer(response)
    ensures r.Ok? ==> List(r.value) == response.fields["homeworks"]
  {
    if !response.Dict? then Err(TypeError(NotDictMessage))
    else if "homeworks" !in response.fields then Err(KeyError(MissingHomeworksMessage))
    else match response.fields["homeworks"]
      case List(items) => Ok(items)
      case _ => Err(TypeError(NotListMessage))
  }

  /** The text sent for a status change. */
  function Notification(name: Value, verdict: string): string
  {
    NotificationPrefix + ToStr(name) + NotificationInfix + verdict
  }

  /** Whether a homework field is absent or `None`: `homework.get(key) is None`. */
  predicate Missing(fields: map<string, Value>, key: string)
  {
    Get(fields, key, Null) == Null
  }

  /** `parse_status`: a non-dict record is a `TypeError`; a missing or `None`
      name or status is a `KeyError`; a list or dict status cannot be looked up
      (`TypeError`: unhashable); any other status outside the verdict table is
      a `ValueError`. Otherwise the notification names the homework and gives
      the verdict of its status. */
  function ParseStatus(homework: Value): (r: Result<string, Error>)
    ensures !homework.Dict? ==> r == Err(TypeError(NotDictMessage))
    ensures homework.Dict? && (Missing(homework.fields, "homework_name") || Missing(homework.fields, "status")) ==>
              r == Err(KeyError(MissingKeysMessage))
    ensures r.Ok? <==>
              && homework.Dict?
              && !Missing(homework.fields, "homework_name")
              && "status" in homework.fields
              && homework.fields["status"].Str?
              && homework.fields["status"].s in Verdicts
    ensures r.Ok? ==>
              r.value == Notification(homework.fields["homework_name"], Verdicts[homework.fields["status"].s])
    ensures r.Err? && homework.Dict? && !Missing(homework.fields, "homework_name") && !Missing(homework.fields, "status") ==>
              var status := homework.fields["status"];
              r == (if status.List? then Err(TypeError("unhashable type: 'list'"))
                    else if status.Dict? then Err(TypeError("unhashable type: 'dict'"))
                    else Err(ValueError(UnexpectedStatusPrefix + ToStr(status))))
  {
    if !homework.Dict? then Err(TypeError(NotDictMessage))
    else
      var name := Get(homework.fields, "homework_name", Null);
      var status := Get(homework.fields, "status", Null);
      if name == Null || status == Null then Err(KeyError(MissingKeysMessage))
      else match status
        case List(_) => Err(TypeError("unhashable type: 'list'"))
        case Dict(_) => Err(TypeError("unhashable type: 'dict'"))
        case Str(s) =>
          if s in Verdicts then Ok(Notification(name, Verdicts[s]))
          else Err(ValueError(UnexpectedStatusPrefix + ToStr(status)))
        case _ => Err(ValueError(UnexpectedStatusPrefix + ToStr(status)))
  }

  predicate EndsWith(text: string, suffix: string)
  {
    |suffix| <= |text| && text[|text| - |suffix|..] == suffix
  }

  /** Reads the review status back from a notification by its closing verdict. */
  function StatusOfNotification(text: string): Option<string>
  {
    if EndsWith(text, ApprovedVerdict) then Some("approved")
    else if EndsWith(text, ReviewingVerdict) then Some("reviewing")
    else if EndsWith(text, RejectedVerdict) then Some("rejected")
    else None
  }

  /** Two suffixes of one text agree on their last `k` characters. */
  lemma SuffixesAgree(text: string, a: string, b: string, k: nat)
    requires EndsWith(text, a) && EndsWith(text, b)
    requires 0 < k <= |a| && k <= |b|
    ensures a[|a| - k] == b[|b| - k]
  {
    assert a[|a| - k] == text[|text| - k];
    assert b[|b| - k] == text[|text| - k];
  }

  /** The table is closed: it has exactly three statuses. */
  lemma VerdictTableClosed(status: string)
    ensures status in Verdicts <==> status == "approved" || status == "reviewing" || status == "rejected"
    ensures |Verdicts| == 3
  {
    assert Verdicts.Keys == {"approved", "reviewing", "rejected"};
  }

  /** Whatever precedes it, a text ending in a verdict reads back as that
      verdict's status. */
  lemma VerdictReadBack(head: string, status: string)
    requires status in Verdicts
    ensures StatusOfNotification(head + Verdicts[status]) == Some(status)
  {
    VerdictTableClosed(status);
    var verdict := Verdicts[status];
    var text := head + verdict;
    assert text[|text| - |verdict|..] == verdict;
    assert EndsWith(text, verdict);
    if status == "reviewing" {
      if EndsWith(text, ApprovedVerdict) {
        SuffixesAgree(text, ApprovedVerdict, ReviewingVerdict, 1);
        assert false;
      }
    } else if status == "rejected" {
      if EndsWith(text, ApprovedVerdict) {
        SuffixesAgree(text, ApprovedVerdict, RejectedVerdict, 1);
        assert false;
      }
      if EndsWith(text, ReviewingVerdict) {
        SuffixesAgree(text, ReviewingVerdict, RejectedVerdict, 2);
        assert false;
      }
    }
  }

  /** A notification that `parse_status` produced determines the status it
      reports, and for a string name it quotes the name verbatim. */
  lemma ParseStatusRoundTrip(homework: Value)
    requires ParseStatus(homework).Ok?
    ensures homework.fields["status"].s in {"approved", "reviewing", "rejected"}
    ensures StatusOfNotification(ParseStatus(homework).value) == Some(homework.fields["status"].s)
    ensures var name := homework.fields["homework_name"];
            var text := ParseStatus(homework).value;
            name.Str? ==>
              && |text| >= |NotificationPrefix| + |name.s|
              && text[..|NotificationPrefix|] == NotificationPrefix
              && text[|NotificationPrefix|..|NotificationPrefix| + |name.s|] == name.s
  {
    var status := homework.fields["status"].s;
    var name := homework.fields["homework_name"];
    VerdictTableClosed(status);
    var head := NotificationPrefix + ToStr(name) + NotificationInfix;
    assert ParseStatus(homework).value == head + Verdicts[status];
    VerdictReadBack(head, status);
  }
}

=== FILE: poller.dfy ===
/** One iteration of the notifier's polling loop, and the loop itself over a
    finite run of iterations. The HTTP call and the two possible chat sends
    of an iteration are inputs; the state carried from one iteration to the
    next is the `from_date` cursor and the last error text that reached the
    chat. */
module Poller {
  import opened Results
  import opened PyValue
  import opened Homework

  const ErrorNoticePrefix: string := "Сбой в работе программы: "
  const SendErrorPrefix: string := "Ошибка при отправке сообщения: "
  const BadStatusPrefix: string := "Код ответа API: "
  const UnreachablePrefix: string := "Эндпоинт недоступен: "
  const RequestErrorPrefix: string := "Ошибка при запросе к API: "

  /** What `get_api_answer` does: return the decoded answer, or raise because
      of a non-200 status, an unreachable endpoint or another request error.
      `BadStatus` never carries 200, for which the request succeeds. */
  datatype ApiOutcome =
    | Answer(payload: Value)
    | BadStatus(code: int)
    | ConnectionFailed(detail: string)
    | RequestFailed(detail: string)

  /** What one `bot.send_message` call does: deliver, or raise with a reason. */
  datatype Delivery = Delivered | Rejected(detail: string)

  /** The outside world for one iteration: the API's behaviour, and how the
      status notification and the error notice would fare if sent. */
  datatype CycleInput = CycleInput(api: ApiOutcome, notifyDelivery: Delivery, alertDelivery: Delivery)

  /** `timestamp` and `last_error_message` of `main`. */
  datatype PollState = PollState(timestamp: Value, lastError: Option<string>)

  /** How the `try` block of an iteration ends, with the texts it passed to
      `send_message` on the way. */
  datatype Attempt = Completed(timestamp: Value, sent: seq<string>) | Raised(error: Error, sent: seq<string>)

  /** The state after an iteration and every text it passed to `send_message`,
      in order, delivered or not. */
  datatype CycleResult = CycleResult(state: PollState, sent: seq<string>)

  /** The exception `get_api_answer` raises for a failed request. */
  function ApiError(api: ApiOutcome): (e: Error)
    requires !api.Answer?
    ensures e.Failure?
    ensures api.BadStatus? ==>
              |BadStatusPrefix| <= |e.msg| && e.msg[..|BadStatusPrefix|] == BadStatusPrefix
              && e.msg[|BadStatusPrefix|..] == IntToStr(api.code)
    ensures api.ConnectionFailed? ==>
              |UnreachablePrefix| <= |e.msg| && e.msg[..|UnreachablePrefix|] == UnreachablePrefix
              && e.msg[|UnreachablePrefix|..] == api.detail
    ensures api.RequestFailed? ==>
              |RequestErrorPrefix| <= |e.msg| && e.msg[..|RequestErrorPrefix|] == RequestErrorPrefix
              && e.msg[|RequestErrorPrefix|..] == api.detail
  {
    match api
    case BadStatus(code) => Failure(BadStatusPrefix + IntToStr(code))
    case ConnectionFailed(detail) => Failure(UnreachablePrefix + detail)
    case RequestFailed(detail) => Failure(RequestErrorPrefix + detail)
  }

  /** The error notice for a non-200 answer carries the status code, and the
      code can be read back from it. */
  lemma StatusCodeInNotice(code: int)
    ensures var notice := ErrorNotice(ApiError(BadStatus(code)));
            var head := ErrorNoticePrefix + BadStatusPrefix;
            && |head| <= |notice|
            && notice[..|head|] == head
            && ReadInt(notice[|head|..]) == Some(code)
  {
    var head := ErrorNoticePrefix + BadStatusPrefix;
    var digits := IntToStr(code);
    var notice := ErrorNotice(ApiError(BadStatus(code)));
    assert notice == head + digits by {
      assert ErrorNoticePrefix + (BadStatusPrefix + digits) == head + digits;
    }
    assert notice[|head|..] == digits;
    IntToStrRoundTrip(code);
  }

  /** The exception the `send_message` helper re-raises when Telegram fails. */
  function SendError(detail: string): (e: Error)
    ensures e.Failure? && |SendErrorPrefix| <= |ErrorText(e)|
    ensures ErrorText(e)[..|SendErrorPrefix|] == SendErrorPrefix
    ensures ErrorText(e)[|SendErrorPrefix|..] == detail
  {
    Failure(SendErrorPrefix + detail)
  }

  /** The text sent to the chat for an exception of the iteration. */
  function ErrorNotice(e: Error): string
  {
    ErrorNoticePrefix + ErrorText(e)
  }

  /** The query parameters of the iteration's API request. */
  function RequestParams(state: PollState): map<string, Value>
  {
    map["from_date" := state.timestamp]
  }

  /** An iteration gets through its `try` block: the API answered with a
      well-formed list, and either the list is empty or its first homework
      parses and its notification is delivered. */
  predicate CycleSucceeds(input: CycleInput)
  {
    && input.api.Answer?
    && WellFormedAnswer(input.api.payload)
    && var homeworks := input.api.payload.fields["homeworks"].items;
       (homeworks == [] || (ParseStatus(homeworks[0]).Ok? && input.notifyDelivery.Delivered?))
  }

  /** The `try` block of one iteration. */
  function TryCycle(timestamp: Value, input: CycleInput): (a: Attempt)
    ensures a.Completed? <==> CycleSucceeds(input)
    ensures a.Completed? ==> a.timestamp == Get(input.api.payload.fields, "current_date", timestamp)
    ensures |a.sent| <= 1
    ensures a.sent != [] ==>
              && input.api.Answer?
              && WellFormedAnswer(input.api.payload)
              && var homeworks := input.api.payload.fields["homeworks"].items;
                 homeworks != [] && ParseStatus(homeworks[0]) == Ok(a.sent[0])
    ensures a.Raised? ==>
              if !input.api.Answer? then a.error == ApiError(input.api)
              else if CheckResponse(input.api.payload).Err? then a.error == CheckResponse(input.api.payload).error
              else
                var homeworks := CheckResponse(input.api.payload).value;
                homeworks != [] &&
                if ParseStatus(homeworks[0]).Err? then a.error == ParseStatus(homeworks[0]).error
                else input.notifyDelivery.Rejected? && a.error == SendError(input.notifyDelivery.detail)
  {
    match input.api
    case Answer(payload) =>
      (match CheckResponse(payload)
       case Err(e) => Raised(e, [])
       case Ok(homeworks) =>
         if homeworks == [] then Completed(Get(payload.fields, "current_date", timestamp), [])
         else match ParseStatus(homeworks[0])
           case Err(e) => Raised(e, [])
           case Ok(message) =>
             match input.notifyDelivery
             case Delivered => Completed(Get(payload.fields, "current_date", timestamp), [message])
             case Rejected(detail) => Raised(SendError(detail), [message]))
    case _ => Raised(ApiError(input.api), [])
  }

  /** One iteration of `main`'s loop. A completed `try` block moves the
      cursor and clears the error marker. An exception leaves the cursor
      alone; its notice is sent only when it differs from the marker, and the
      marker takes the notice only when that send is delivered. */
  function Step(state: PollState, input: CycleInput): (r: CycleResult)
    ensures CycleSucceeds(input) ==>
              r.state == PollState(Get(input.api.payload.fields, "current_date", state.timestamp), None)
    ensures !CycleSucceeds(input) ==> r.state.timestamp == state.timestamp
    ensures r.state.lastError.Some? ==>
              r.state.lastError == state.lastError
              || (r.sent != [] && r.state.lastError == Some(r.sent[|r.sent| - 1]) && input.alertDelivery.Delivered?)
    ensures |r.sent| <= 2
  {
    match TryCycle(state.timestamp, input)
    case Completed(timestamp, sent) => CycleResult(PollState(timestamp, None), sent)
    case Raised(e, sent) =>
      var notice := ErrorNotice(e);
      if Some(notice) != state.lastError then
        var marker := if input.alertDelivery.Delivered? then Some(notice) else state.lastError;
        CycleResult(PollState(state.timestamp, marker), sent + [notice])
      else
        CycleResult(state, sent)
  }

  /** Iterations run one after another; the sends accumulate in order. At
      most two texts go out per iteration; without a successful iteration the
      cursor never moves; after a successful last iteration no error is marked. */
  function Cycles(state: PollState, inputs: seq<CycleInput>): (r: CycleResult)
    ensures |r.sent| <= 2 * |inputs|
    ensures (forall i :: 0 <= i < |inputs| ==> !CycleSucceeds(inputs[i])) ==> r.state.timestamp == state.timestamp
    ensures inputs != [] && CycleSucceeds(inputs[|inputs| - 1]) ==> r.state.lastError == None
    decreases |inputs|
  {
    if inputs == [] then CycleResult(state, [])
    else
      var first := Step(state, inputs[0]);
      var rest := Cycles(first.state, inputs[1..]);
      CycleResult(rest.state, first.sent + rest.sent)
  }

  /** The outcome of `main`: it stops before polling, or it polls. */
  datatype RunResult = Halted | Polled(state: PollState, sent: seq<string>)

  /** `main` over a finite prefix of its endless loop: without all tokens it
      stops before any iteration; otherwise it starts from the current time
      with no error marker. */
  function Run(tokens: Tokens, now: int, inputs: seq<CycleInput>): (r: RunResult)
    ensures r.Halted? <==> !(tokens.practicum.Some? && tokens.telegram.Some? && tokens.chatId.Some?)
    ensures r.Polled? ==> Cycles(PollState(Int(now), None), inputs) == CycleResult(r.state, r.sent)
  {
    if !CheckTokens(tokens) then Halted
    else
      var last := Cycles(PollState(Int(now), None), inputs);
      Polled(last.state, last.sent)
  }

  /** `n` identical iterations. */
  function Repeat(input: CycleInput, n: nat): (r: seq<CycleInput>)
    ensures |r| == n && forall i :: 0 <= i < n ==> r[i] == input
  {
    if n == 0 then [] else [input] + Repeat(input, n - 1)
  }

  /** Only the first homework of the list matters: two answers that agree on
      everything but the homeworks after the first give the same iteration. */
  lemma OnlyFirstHomeworkReported(state: PollState, input: CycleInput, rest: seq<Value>)
    requires input.api.Answer? && WellFormedAnswer(input.api.payload)
    requires input.api.payload.fields["homeworks"].items != []
    ensures var fields := input.api.payload.fields;
            var first := fields["homeworks"].items[0];
            var other := input.(api := Answer(Dict(fields["homeworks" := List([first] + rest)])));
            Step(state, other) == Step(state, input)
  {
  }

  /** A non-empty list leads to exactly one status notification, built from
      the first homework, as the first text of the iteration; it is the only
      text when delivered. */
  lemma NonEmptyListNotifiesOnce(state: PollState, input: CycleInput)
    requires input.api.Answer? && WellFormedAnswer(input.api.payload)
    requires input.api.payload.fields["homeworks"].items != []
    requires ParseStatus(input.api.payload.fields["homeworks"].items[0]).Ok?
    ensures var r := Step(state, input);
            r.sent != [] && r.sent[0] == ParseStatus(input.api.payload.fields["homeworks"].items[0]).value
    ensures input.notifyDelivery.Delivered? ==> |Step(state, input).sent| == 1
  {
  }

  /** An empty list sends nothing and raises nothing: the cursor follows
      `current_date` and the marker is cleared. */
  lemma EmptyListSendsNothing(state: PollState, input: CycleInput)
    requires input.api.Answer? && WellFormedAnswer(input.api.payload)
    requires input.api.payload.fields["homeworks"].items == []
    ensures Step(state, input).sent == []
    ensures Step(state, input).state == PollState(Get(input.api.payload.fields, "current_date", state.timestamp), None)
  {
  }

  /** The error an iteration raises does not depend on the cursor. */
  lemma RaisedIgnoresCursor(t1: Value, t2: Value, input: CycleInput)
    requires TryCycle(t1, input).Raised?
    ensures TryCycle(t2, input) == TryCycle(t1, input)
  {
  }

  /** An iteration that fails sends its error notice exactly when the notice
      differs from the marker; the marker becomes the notice only if that send
      is delivered, so an undelivered notice is tried again next time. */
  lemma ErrorNoticeDeduplicated(state: PollState, input: CycleInput)
    requires !CycleSucceeds(input)
    ensures var a := TryCycle(state.timestamp, input);
            var notice := ErrorNotice(a.error);
            var r := Step(state, input);
            && (Some(notice) == state.lastError ==> r == CycleResult(state, a.sent))
            && (Some(notice) != state.lastError ==>
                  && r.sent == a.sent + [notice]
                  && r.state.timestamp == state.timestamp
                  && r.state.lastError == (if input.alertDelivery.Delivered? then Some(notice) else state.lastError))
  {
  }

  /** An iteration that fails before sending anything. */
  predicate FailsSilently(input: CycleInput)
  {
    TryCycle(Null, input).Raised? && TryCycle(Null, input).sent == []
  }

  function SilentNotice(input: CycleInput): string
    requires FailsSilently(input)
  {
    ErrorNotice(TryCycle(Null, input).error)
  }

  /** A failure that keeps recurring reaches the chat once: the first
      delivered notice arms the marker and every later identical notice is
      suppressed. */
  lemma {:induction false} RepeatedErrorReportedOnce(state: PollState, input: CycleInput, n: nat)
    requires FailsSilently(input) && input.alertDelivery.Delivered?
    requires n >= 1
    ensures var r := Cycles(state, Repeat(input, n));
            && r.sent == (if state.lastError == Some(SilentNotice(input)) then [] else [SilentNotice(input)])
            && r.state == PollState(state.timestamp, Some(SilentNotice(input)))
    decreases n
  {
    var notice := SilentNotice(input);
    RaisedIgnoresCursor(Null, state.timestamp, input);
    var inputs := Repeat(input, n);
    assert inputs[0] == input && inputs[1..] == Repeat(input, n - 1);
    var first := Step(state, input);
    assert first.state == PollState(state.timestamp, Some(notice));
    if n > 1 {
      RepeatedErrorReportedOnce(first.state, input, n - 1);
    }
  }

  /** A successful iteration between two identical failures clears the
      marker, so the second failure is reported again. */
  lemma SuccessRearmsErrorNotice(state: PollState, bad: CycleInput, good: CycleInput)
    requires FailsSilently(bad) && bad.alertDelivery.Delivered?
    requires CycleSucceeds(good)
    ensures var s1 := Step(state, bad).state;
            var s2 := Step(s1, good).state;
            Step(s2, bad).sent == [SilentNotice(bad)]
  {
    var s1 := Step(state, bad).state;
    var s2 := Step(s1, good).state;
    RaisedIgnoresCursor(Null, s2.timestamp, bad);
  }

  /** A notice that could not be delivered leaves the marker as it was, so
      the same failure in the next iteration sends the notice again. */
  lemma UndeliveredNoticeRetried(state: PollState, input: CycleInput, detail: string)
    requires FailsSilently(input)
    requires state.lastError != Some(SilentNotice(input))
    ensures var failed := Step(state, input.(alertDelivery := Rejected(detail)));
            && failed.sent == [SilentNotice(input)]
            && failed.state == state
            && Step(failed.state, input).sent == [SilentNotice(input)]
  {
    RaisedIgnoresCursor(Null, state.timestamp, input);
    RaisedIgnoresCursor(Null, state.timestamp, input.(alertDelivery := Rejected(detail)));
  }

  /** The worked example of an approved homework: one notification naming
      it with the approved verdict, and the next request asks from 1000. */
  lemma ApprovedExample(state: PollState)
    ensures var homework := Dict(map["homework_name" := Str("hw1"), "status" := Str("approved")]);
            var payload := Dict(map["homeworks" := List([homework]), "current_date" := Int(1000)]);
            var r := Step(state, CycleInput(Answer(payload), Delivered, Delivered));
            && r.sent == [NotificationPrefix + "hw1" + NotificationInfix + ApprovedVerdict]
            && RequestParams(r.state)["from_date"] == Int(1000)
  {
    var homework := Dict(map["homework_name" := Str("hw1"), "status" := Str("approved")]);
    var payload := Dict(map["homeworks" := List([homework]), "current_date" := Int(1000)]);
    assert CheckResponse(payload) == Ok([homework]);
    assert Verdicts["approved"] == ApprovedVerdict;
    assert ParseStatus(homework) == Ok(Notification(Str("hw1"), ApprovedVerdict));
  }

  /** The worked example of an answer without `homeworks`: the `KeyError`
      notice quotes its message, and an immediate repeat sends nothing. */
  lemma MissingHomeworksExample(state: PollState)
    requires state.lastError.None?
    ensures var input := CycleInput(Answer(Dict(map[])), Delivered, Delivered);
            var first := Step(state, input);
            && first.sent == [ErrorNoticePrefix + "'" + MissingHomeworksMessage + "'"]
            && Step(first.state, input).sent == []
  {
    var input := CycleInput(Answer(Dict(map[])), Delivered, Delivered);
    var e := KeyError(MissingHomeworksMessage);
    assert TryCycle(state.timestamp, input) == Raised(e, []);
    assert ErrorNotice(e) == ErrorNoticePrefix + "'" + MissingHomeworksMessage + "'";
    var first := Step(state, input);
    assert first.state.lastError == Some(ErrorNotice(e));
    assert TryCycle(first.state.timestamp, input) == Raised(e, []);
  }
}

=== FILE: pytext.dfy ===
/** Python's `str.strip()` with no argument: it removes the characters for
    which `str.isspace()` holds from both ends of a string. */
module PyText {

  /** `c.isspace()` in Python 3: the Unicode whitespace and separator code
      points, plus the ASCII information separators 0x1C to 0x1F. */
  predicate IsSpace(c: char)
  {
    var n := c as int;
    || (0x09 <= n <= 0x0D)
    || (0x1C <= n <= 0x20)
    || n == 0x85
    || n == 0xA0
    || n == 0x1680
    || (0x2000 <= n <= 0x200A)
    || n == 0x2028
    || n == 0x2029
    || n == 0x202F
    || n == 0x205F
    || n == 0x3000
  }

  predicate AllSpace(s: string)
  {
    forall i :: 0 <= i < |s| ==> IsSpace(s[i])
  }

  /** Every character of `s` from `lo` up to `hi` is whitespace. */
  predicate SpaceBetween(s: string, lo: nat, hi: nat)
    requires lo <= hi <= |s|
  {
    forall i :: lo <= i < hi ==> IsSpace(s[i])
  }

  /** Neither end of `s` is whitespace. */
  predicate Trimmed(s: string)
  {
    s == [] || (!IsSpace(s[0]) && !IsSpace(s[|s| - 1]))
  }

  /** The first position at or after `i` that is not whitespace, or `|s|`. */
  function SkipForward(s: string, i: nat): (k: nat)
    requires i <= |s|
    ensures i <= k <= |s| && SpaceBetween(s, i, k)
    ensures k == |s| || !IsSpace(s[k])
    decreases |s| - i
  {
    if i < |s| && IsSpace(s[i]) then SkipForward(s, i + 1) else i
  }

  /** The position just after the last non-whitespace character before `j`
      and not before `lo`, or `lo`. */
  function SkipBackward(s: string, lo: nat, j: nat): (k: nat)
    requires lo <= j <= |s|
    ensures lo <= k <= j && SpaceBetween(s, k, j)
    ensures k == lo || !IsSpace(s[k - 1])
    decreases j
  {
    if lo < j && IsSpace(s[j - 1]) then SkipBackward(s, lo, j - 1) else j
  }

  /** `s.strip()`: the middle of `s`, without whitespace at either end. */
  function Strip(s: string): (r: string)
    ensures Trimmed(r) && |r| <= |s|
  {
    var lo := SkipForward(s, 0);
    var hi := SkipBackward(s, lo, |s|);
    s[lo..hi]
  }

  /** What `strip` removes is whitespace only: the input is the result with
      whitespace before and after it. */
  lemma StripRemovesOnlySpace(s: string) returns (lead: string, trail: string)
    ensures s == lead + Strip(s) + trail
    ensures AllSpace(lead) && AllSpace(trail)
  {
    var lo := SkipForward(s, 0);
    var hi := SkipBackward(s, lo, |s|);
    lead := s[..lo];
    trail := s[hi..];
    assert s == s[..lo] + s[lo..hi] + s[hi..];
  }

  /** Scanning forward from `i` stops exactly at the first non-whitespace. */
  lemma {:induction false} SkipForwardStopsAt(s: string, i: nat, k: nat)
    requires i <= k <= |s| && SpaceBetween(s, i, k)
    requires k == |s| || !IsSpace(s[k])
    ensures SkipForward(s, i) == k
    decreases |s| - i
  {
    if i < k {
      SkipForwardStopsAt(s, i + 1, k);
    }
  }

  /** Scanning backward from `j` stops exactly after the last non-whitespace. */
  lemma {:induction false} SkipBackwardStopsAt(s: string, lo: nat, j: nat, k: nat)
    requires lo <= k <= j <= |s| && SpaceBetween(s, k, j)
    requires k == lo || !IsSpace(s[k - 1])
    ensures SkipBackward(s, lo, j) == k
    decreases j
  {
    if k < j {
      SkipBackwardStopsAt(s, lo, j - 1, k);
    }
  }

  /** Stripping is determined by the shape of its input: whatever whitespace
      surrounds a string without outer whitespace, `strip` gives that string
      back. */
  lemma StripRecoversCore(p: string, m: string, q: string)
    requires AllSpace(p) && AllSpace(q) && Trimmed(m)
    ensures Strip(p + m + q) == m
  {
    var s := p + m + q;
    if m == [] {
      assert SpaceBetween(s, 0, |s|);
      SkipForwardStopsAt(s, 0, |s|);
      SkipBackwardStopsAt(s, |s|, |s|, |s|);
    } else {
      assert s[|p|] == m[0];
      assert SpaceBetween(s, 0, |p|);
      SkipForwardStopsAt(s, 0, |p|);
      assert s[|p| + |m| - 1] == m[|m| - 1];
      assert SpaceBetween(s, |p| + |m|, |s|);
      SkipBackwardStopsAt(s, |p|, |s|, |p| + |m|);
      assert s[|p|..|p| + |m|] == m;
    }
  }

  /** Stripping twice is stripping once. */
  lemma StripIdempotent(s: string)
    ensures Strip(Strip(s)) == Strip(s)
  {
    var r := Strip(s);
    assert [] + r + [] == r;
    StripRecoversCore([], r, []);
  }
}

=== FILE: pyvalue.dfy ===
/** Decoded JSON values as the Python code sees them after `response.json()`,
    together with the two conversions to text the notifier relies on:
    `str(int)` and `str(value)` inside an f-string. */
module PyValue {
  import opened Results

  /** A JSON value: `None`, `bool`, `int`, `str`, `list` or `dict`. */
  datatype Value =
    | Null
    | Bool(b: bool)
    | Int(i: int)
    | Str(s: string)
    | List(items: seq<Value>)
    | Dict(fields: map<string, Value>)

  /** `d.get(key, default)` on a decoded JSON object. */
  function Get(d: map<string, Value>, key: string, default: Value): Value
  {
    if key in d then d[key] else default
  }

  predicate IsDigit(c: char)
  {
    '0' <= c <= '9'
  }

  predicate AllDigits(s: string)
  {
    forall i :: 0 <= i < |s| ==> IsDigit(s[i])
  }

  function DigitChar(d: nat): (c: char)
    requires d < 10
    ensures IsDigit(c) && (c as int) - ('0' as int) == d
  {
    ['0', '1', '2', '3', '4', '5', '6', '7', '8', '9'][d]
  }

  /** The decimal digits of `n`, most significant first, without leading zeros. */
  function NatToDecimal(n: nat): (r: string)
    ensures |r| > 0 && AllDigits(r)
    ensures r[0] == '0' ==> n == 0
    decreases n
  {
    if n < 10 then [DigitChar(n)] else NatToDecimal(n / 10) + [DigitChar(n % 10)]
  }

  /** The number a string of decimal digits denotes. */
  function DecimalToNat(s: string): nat
    requires AllDigits(s)
  {
    if s == [] then 0
    else DecimalToNat(s[..|s| - 1]) * 10 + ((s[|s| - 1] as int) - ('0' as int))
  }

  lemma {:induction false} NatDecimalRoundTrip(n: nat)
    ensures DecimalToNat(NatToDecimal(n)) == n
    decreases n
  {
    if n >= 10 {
      var r := NatToDecimal(n);
      assert r[..|r| - 1] == NatToDecimal(n / 10);
      NatDecimalRoundTrip(n / 10);
    }
  }

  /** Python's `str(n)` for an `int`. */
  function IntToStr(n: int): string
  {
    if n < 0 then "-" + NatToDecimal(-n) else NatToDecimal(n)
  }

  /** Python's `int(s)` restricted to the canonical form `str` produces. */
  function ReadInt(s: string): Option<int>
  {
    if |s| > 1 && s[0] == '-' && AllDigits(s[1..]) then Some(0 - DecimalToNat(s[1..]) as int)
    else if |s| > 0 && AllDigits(s) then Some(DecimalToNat(s))
    else None
  }

  /** `str(n)` loses nothing: the integer can be read back from its text. */
  lemma IntToStrRoundTrip(n: int)
    ensures ReadInt(IntToStr(n)) == Some(n)
  {
    if n < 0 {
      var d := NatToDecimal(-n);
      var t := "-" + d;
      assert t == IntToStr(n);
      assert t[1..] == d && |t| > 1 && t[0] == '-';
      NatDecimalRoundTrip(-n);
      assert ReadInt(t) == Some(0 - DecimalToNat(d) as int);
    } else {
      var d := NatToDecimal(n);
      assert d == IntToStr(n);
      assert IsDigit(d[0]);
      NatDecimalRoundTrip(n);
      assert ReadInt(d) == Some(DecimalToNat(d) as int);
    }
  }

  /** Python's `str(v)` as used by an f-string. Strings, integers, booleans and
      `None` are rendered as Python renders them; lists and dicts get a fixed
      placeholder instead of their `repr`. */
  function ToStr(v: Value): string
  {
    match v
    case Null => "None"
    case Bool(b) => if b then "True" else "False"
    case Int(i) => IntToStr(i)
    case Str(s) => s
    case List(_) => "[...]"
    case Dict(_) => "{...}"
  }
}

=== FILE: results.dfy ===
/** Optional values and success-or-error results, used for the places where
    the Python code returns None or raises an exception. */
module Results {

  /** Python's `None` versus a present value. */
  datatype Option<+T> = None | Some(value: T)

  /** A return value or a raised exception. */
  datatype Result<+T, +E> = Ok(value: T) | Err(error: E)
}
